=== FILE: README.md ===
# MamaCare core logic in Dafny

MamaCare is a maternal-health web application. It has an intake form, a dashboard, a small sign-up/login flow and one edge function. Its logic consists of a few small pure rules, and this project models each of them as pure Dafny functions over immutable values and proves properties about them:

- **Dashboard** (`dashboard.dfy`):
  - loading the stored pregnancy profile into the page state, including the `reminders` backfill, parse failures and a missing value;
  - the pregnancy-progress calculator: the estimated due day, whole weeks and days elapsed, and the clamped percentage;
  - the display mappers: date, pregnancy number, communication method, language and the greeting name.
- **Intake step machine** (`get_started.dfy`): a step counter bounded to 1..4, the Previous and primary buttons (the primary button runs `nextStep` and reads "Next" until the last step), and the progress bar.
- **Sign-up page** (`sign_up.dfy`): the ordered password checks, whether the sign-up call happens, the error shown and the navigation.
- **Authentication context** (`auth_context.dfy`): the in-memory user and token mirrored into `localStorage` (a `map<string,string>`), logout, `isAuthenticated`, the start-up read, and how sign-up/login react to the server's reply.
- **Profile-save edge function** (`save_profile.dfy`): the dispatch from method and parsed body to status, JSON body and CORS headers.

Support modules:

- `js_values.dfy` models JavaScript values: parsed JSON, truthiness, property reads and object spread.
- `js_strings.dfy` models decimal rendering, `trim` and ASCII upper-casing.
- `calendar.dfy` converts calendar dates to day numbers for the worked examples.

Dates are integer day numbers. Everything outside the code is a parameter:

- `today`;
- `dayOf`, for `new Date(field)` normalised to local midnight;
- `parse`, for `JSON.parse`, where None means it threw;
- `stringify`, for `JSON.stringify` of a user;
- the server's reply;
- `render`, for `toLocaleDateString` together with its `catch` fallback in `Dashboard.FormatDate`;
- the edge function's clock.

Three behaviours of the code are easy to misread:

- The calculation never reads `calculationMethod`. The due day comes from `dueDate` whenever that field is truthy, and from the last menstrual period only otherwise (`Dashboard.MethodIsIgnored`).
- A stored profile that fails to parse leaves the previous profile in place rather than clearing it. A stored `null` does the same, because reading its `reminders` throws inside the same `try`.
- The day remainder uses JavaScript's truncating `%`, so an elapsed count of −3 gives 0 days, not 4 (`Dashboard.TruncRem`).

## Model

| member | source | states |
|---|---|---|
| JsValues.GetItem | src/pages/Dashboard.tsx:66 | `localStorage.getItem` gives a value exactly when the key is stored, and then the stored text; otherwise `null`. |
| JsValues.Truthy | src/pages/Dashboard.tsx:72 | A parsed value is falsy exactly when it is `null`, `false`, `0` or `""`. Empty arrays and objects are truthy. |
| JsValues.TruthyString | src/context/auth-context.tsx:62 | A nullable string is truthy exactly when it is present and non-empty, the same verdict as for the string as a JSON value. |
| JsStrings.DecimalString | supabase/functions/save-pregnancy-profile/index.ts:62 | `String(n)` of a non-negative integer below 10^21: at least one character, all decimal digits, no leading zero except for 0 itself, and a single digit exactly below 10. |
| JsStrings.DecimalRoundTrip | supabase/functions/save-pregnancy-profile/index.ts:62 | Reading the rendered digits back as a number gives the original integer, so distinct integers render differently. |
| JsValues.OwnProperties | src/pages/Dashboard.tsx:71 | Spreading an object copies its fields. A string spreads one entry per character and an array one per element, under the decimal index. `null`, booleans and numbers spread nothing. A non-object therefore has only digit keys. |
| JsValues.Property | supabase/functions/save-pregnancy-profile/index.ts:45 | Reading a property throws exactly on `null`. Otherwise it is defined exactly when the key is an own property, and then it is that property's value. |
| Dashboard.LoadedProfile | src/pages/Dashboard.tsx:69-78 | The loaded object has exactly the parsed value's own properties plus `reminders`. Every other field is kept unchanged. `reminders` is kept when it is truthy and replaced by all-true settings otherwise. Building it fails exactly when the parsed value is `null`. |
| Dashboard.LoadProfile | src/pages/Dashboard.tsx:65-86 | After any load `loading` is false. A missing or empty stored value gives no profile. A parse failure or a parsed `null` leaves the previous profile unchanged. Any other parsed value becomes the profile with reminders backfilled. |
| Dashboard.ReloadIsIdempotent | src/pages/Dashboard.tsx:88-109 | Re-running the load on an unchanged store, as each storage, profile-update or focus signal does, gives the same state as running it once. |
| Dashboard.LoadRoundTrip | src/pages/Dashboard.tsx:66-78 | A stored object with truthy reminders loads as exactly that object. Without them it loads as that object with the default reminders added. |
| Dashboard.LoadForgetsPrevious | src/pages/Dashboard.tsx:67-85 | Unless parsing fails or yields `null`, the loaded state does not depend on the previous state. |
| Dashboard.FirstLoad | src/pages/Dashboard.tsx:60-86 | On a first visit the page starts with no profile and the spinner shown. After the first load the spinner is gone. The page has no profile exactly when the stored value is missing, empty, unparseable or `null`. |
| Dashboard.LogoutKeepsProfile | src/context/auth-context.tsx:96-98 | Logging out leaves the profile key alone, so the next dashboard load sees the same profile. |
| Dashboard.TruncRem | src/pages/Dashboard.tsx:139 | JavaScript's `%` by a positive divisor, as ECMA-262 defines it: the dividend minus the remainder is a multiple of the divisor, the remainder has the sign of the dividend, and its magnitude is below the divisor. This pins the remainder down: in [0, b) for a non-negative dividend and in (−b, 0] for a negative one. |
| Dashboard.Snapshot | src/pages/Dashboard.tsx:136-141 | The snapshot satisfies `Measures`. Weeks and days are non-negative with days in [0,6]. For elapsed ≥ 0, weeks·7 + days = elapsed; before term both are 0. The percentage lies in [0,100]: 0 up to day 0, 100 from day 280, elapsed/280·100 in between. |
| Dashboard.MeasuresIsUnique | src/pages/Dashboard.tsx:138-140 | Those properties determine the snapshot completely, so `Measures` is a full reference definition of the computation. |
| Dashboard.CalculatePregnancyProgress | src/pages/Dashboard.tsx:118-143 | With no profile, or with neither date field truthy, the result is the zero snapshot. When `dueDate` is truthy it is the due day. Otherwise the due day is the last menstrual period + 280. weeks ≥ 0, days ∈ [0,6] and percentage ∈ [0,100]. The snapshot measures 280 − (due − today) elapsed days. |
| Dashboard.MethodIsIgnored | src/pages/Dashboard.tsx:121-130 | Changing `calculationMethod` never changes the snapshot. |
| Dashboard.OverdueKeepsCounting | src/pages/Dashboard.tsx:138-140 | Weeks have no upper bound. A due day at least a week past gives more than 40 weeks while the percentage stays at 100. |
| Dashboard.ExampleLmpToday | src/pages/Dashboard.tsx:124-127 | With a last menstrual period of 2024-01-01 seen on that day: due 2024-10-07, 0 weeks, 0 days, 0%. |
| Dashboard.ExampleDueInHalfYear | src/pages/Dashboard.tsx:122-140 | A due date of 2024-12-25 seen on 2024-06-25 is 183 days ahead: 13 weeks, 6 days, 97/280 of term. |
| Dashboard.FormatDate | src/pages/Dashboard.tsx:145-157 | An absent or empty date reads "Not specified". Any other value goes to the locale renderer. |
| Dashboard.FormatPregnancyNumber | src/pages/Dashboard.tsx:159-172 | Each of the four codes maps to its label in the table; any other text is returned unchanged. The result is never itself a code. |
| Dashboard.FormatCommunicationMethod | src/pages/Dashboard.tsx:178-189 | Each of the three codes maps to its label in the table; any other text is returned unchanged. The result is never itself a code. |
| Dashboard.FormattersAreIdempotent | src/pages/Dashboard.tsx:159-189 | Formatting an already formatted value changes nothing. |
| Dashboard.FormatLanguage | src/pages/Dashboard.tsx:174-176 | Same length. The first character is upper-cased and the rest is unchanged; the empty string stays empty. |
| Dashboard.FormatLanguageIsIdempotent | src/pages/Dashboard.tsx:174-176 | Capitalising twice is the same as capitalising once. |
| Dashboard.FullName | src/pages/Dashboard.tsx:224 | Never empty. It is "User" when first name, space and last name are all whitespace. Otherwise it is that text trimmed. |
| JsStrings.Trim | src/pages/Dashboard.tsx:224 | The trimmed text is an infix of the input with only whitespace around it. It is empty iff the input is all whitespace, and otherwise neither starts nor ends with whitespace. |
| GetStarted.NextStep | src/pages/GetStarted.tsx:26-30 | Advances by one below step 4 and leaves step 4 unchanged. Keeps the step in [1,4]. |
| GetStarted.PrevStep | src/pages/GetStarted.tsx:32-36 | Goes back by one above step 1 and leaves step 1 unchanged. Keeps the step in [1,4]. |
| GetStarted.NextAndPrevAreInverse | src/pages/GetStarted.tsx:26-36 | Away from the ends, `prevStep` undoes `nextStep` and `nextStep` undoes `prevStep`. |
| GetStarted.PrimaryButton | src/pages/GetStarted.tsx:327-331 | On the last step the primary button leaves the step at 4. Elsewhere it runs `nextStep`. |
| GetStarted.PrimaryLabel | src/pages/GetStarted.tsx:331 | The caption is "Complete Setup" exactly on the last step and "Next" otherwise. |
| GetStarted.Progress | src/pages/GetStarted.tsx:23-24 | progress·4 = step·100. It is one of 25, 50, 75 and 100 on a valid step, and 100 exactly on the last step. |
| GetStarted.PrimaryActsAsNext | src/pages/GetStarted.tsx:26-30 | On every step the primary button has the effect of `nextStep`: its no-op on the last step is where `nextStep` stops anyway. |
| GetStarted.Apply | src/pages/GetStarted.tsx:320-328 | One press of either rendered button moves the step by one at most: Previous never forward, the primary button never back. A step in [1,4] stays in [1,4]. |
| GetStarted.Run | src/pages/GetStarted.tsx:320-328 | After n presses the step lies within n of where it started. |
| GetStarted.RunStaysInRange | src/pages/GetStarted.tsx:22-36 | Starting in [1,4], any sequence of button presses keeps the step in [1,4]. |
| GetStarted.PrimaryPressesFrom | src/pages/GetStarted.tsx:26-30 | From a valid step s, n presses of the primary button reach min(s + n, 4). |
| GetStarted.PrimaryPressesReach | src/pages/GetStarted.tsx:22-30 | From the initial step 1, n presses of the primary button reach min(1 + n, 4). |
| SignUp.Validate | src/pages/SignUp.tsx:27-35 | A password shorter than 6 gives the length error whatever the confirmation is. A long enough one that differs from the confirmation gives "Passwords do not match.". No error iff both checks pass. |
| SignUp.PayloadOf | src/pages/SignUp.tsx:40-45 | The call receives first name, last name, email and password from the form. |
| SignUp.HandleSubmit | src/pages/SignUp.tsx:23-53 | The sign-up call is made iff validation passes, with the form's payload. A failed check shows its message and navigates nowhere. A resolved call navigates to /dashboard with no error. A thrown Error shows its message; any other thrown value shows the fallback text. After a call the busy flag is false. |
| SignUp.PreviousErrorIsCleared | src/pages/SignUp.tsx:25 | The error shown, the call made and the navigation do not depend on the error shown before the submit. |
| SignUp.ConfirmationIsNotForwarded | src/pages/SignUp.tsx:39-45 | For every form, changing `confirmPassword` does not change the payload. Whenever a submit makes its call, that call equals the payload of the form with any other confirmation. |
| SignUp.SignUpSendsTheForm | src/pages/SignUp.tsx:39-45 | The request a sign-up causes goes to the base URL + /api/auth/signup. Its body is exactly the form's first name, last name, email and password, and never the confirmation. |
| SignUp.SubmitWithAuth | src/pages/SignUp.tsx:39-49 | Wired to the auth context, an invalid form leaves the session unchanged. A valid form updates the session as the reply dictates. The page navigates iff the form is valid and the reply accepted. |
| SignUp.AuthFailuresShowTheirMessage | src/pages/SignUp.tsx:47-49 | Behind the auth context a failed sign-up shows the context's own message and keeps the session. A rejection without server text shows the context's default message. |
| AuthContext.Put | src/context/auth-context.tsx:56-66 | `setItem` of a value makes the key present with exactly that value; `removeItem` makes it absent. Every other key keeps its presence and value. |
| AuthContext.PersistSession | src/context/auth-context.tsx:52-67 | Afterwards the in-memory user and token equal the arguments. The user key is present iff there is a user, and then holds its serialisation. The token key is present iff the token is non-empty, and then holds it. All other store entries are unchanged. |
| AuthContext.Logout | src/context/auth-context.tsx:96-98 | User and token are null, both keys are absent, and all other store entries are unchanged. |
| AuthContext.AuthenticatedAfterPersist | src/context/auth-context.tsx:104 | After persisting, `isAuthenticated` holds iff there is a user and a non-empty token. After logout it is false. |
| AuthContext.IsAuthenticated | src/context/auth-context.tsx:104 | Authenticated iff there is a user and the token is present and non-empty. |
| AuthContext.InitialSession | src/context/auth-context.tsx:39-45 | The start-up user is parsed from the user key when that holds non-empty text; the token is whatever the token key holds. Start-up fails exactly when the stored user text is malformed. |
| AuthContext.PersistThenRestart | src/context/auth-context.tsx:39-67 | After persisting, a restart sees the same user and the token if it was non-empty, with the same authentication verdict. This assumes the user's serialisation parses back. |
| AuthContext.LogoutThenRestart | src/context/auth-context.tsx:39-45 | After logout, a restart has no user and no token. |
| AuthContext.SignUpRequest | src/context/auth-context.tsx:69-89 | Sign-up posts to the base URL + /api/auth/signup. The body has exactly the keys first name, last name, email and password, each holding the payload's value. |
| AuthContext.LoginRequest | src/context/auth-context.tsx:69-94 | Login posts to the base URL + /api/auth/login with exactly email and password. |
| AuthContext.RejectionMessage | src/context/auth-context.tsx:78-81 | A non-ok response throws the server's `error` text when it is non-empty, otherwise the default message. |
| AuthContext.CompleteAuth | src/context/auth-context.tsx:78-94 | The call resolves iff the reply was accepted, and then persists the reply's user and token. A rejected or failed reply throws its message and leaves the session unchanged. |
| SaveProfile.SavedData | supabase/functions/save-pregnancy-profile/index.ts:58-66 | The saved record has every submitted field plus `id` and `createdAt`, and every submitted field other than `createdAt` keeps its value. The generated id is used only when the client sent none. `createdAt` is the server's time. |
| SaveProfile.Handle | supabase/functions/save-pregnancy-profile/index.ts:33-99 | OPTIONS gives 200 with a null body and the CORS headers. Any method other than OPTIONS and POST gives 405 "Method not allowed". For POST, an unparseable or `null` body gives 500 "Internal server error". A falsy `email` gives 400 "Email is required". Otherwise the response is 200 with `success: true` and the saved record. Every response carries the CORS headers, and the status is one of 200/400/405/500. |
| SaveProfile.SavedOnlyObjects | supabase/functions/save-pregnancy-profile/index.ts:45-66 | A POST answered 200 always came with an object body. Strings and arrays, whose only own keys are indices, never carry a truthy `email`. |
| SaveProfile.SavedKeepsFields | supabase/functions/save-pregnancy-profile/index.ts:58-66 | For an object body, every field but `createdAt` is kept, and a client-supplied `id` wins over the generated one. |

## Left out

- JSX rendering, styling and icons: no checkable behaviour.
- Event-listener wiring and cleanup (`storage`, `profileUpdated`, `focus`): this is browser event plumbing. A change signal is modelled as running `Dashboard.LoadProfile` again.
- The `console.error` log on a parse failure: it has no effect on state.
- `new Date(...)` parsing and time zones are the parameter `dayOf`. That includes the shift of a date-only string, which JavaScript reads as UTC midnight. An invalid date (NaN arithmetic) is not modelled, because `dayOf` is total.
- Dashboard.CalculatePregnancyProgress measures whole days. The source takes `Math.ceil` of a millisecond difference, so a span that crosses a daylight-saving change can count one day more than whole days do, in either direction: a due day ahead across a summer-to-winter change gives one more day until it, and a due day past across a winter-to-summer change gives one day less overdue (due 1 March, today 1 April in a European zone: −30.96 days, ceiled to −30 rather than −31). Daylight saving is outside this model.
- Floating-point representation of the percentages and the `Math.round` applied when displaying them: the model uses exact reals.
- `JSON.parse`, `JSON.stringify`, `fetch`, `req.json()` and `Deno.serve` are library or network code. They are parameters or reduced to their results.
- JsStrings.DecimalString gives plain digits for every natural number. JavaScript renders integers from 10^21 up in exponent form (`String(1e21)` is `"1e+21"`). The clock readings (`Date.now()` is at most 8.64·10^15) and string and array indices (below 2^32) that the application renders stay far below that bound.
- JsValues.OwnProperties spreads a string with one entry per Unicode code point. JavaScript spreads it by UTF-16 code unit, so a character outside the Basic Multilingual Plane gives two index keys in the source and one here.
- JsValues.Property: non-enumerable own properties such as a string's or an array's `length`, and inherited methods, are not modelled. None of the keys the application reads names one.
- Dashboard.FullName treats a truthy non-string name field (a number, an array) as empty instead of converting it to text.
- Dashboard.FormatLanguage upper-cases ASCII letters only. JavaScript's full Unicode case mapping (including length-changing cases such as "ß") is not modelled.
- SignUp.Validate counts the password's length in Unicode code points. JavaScript counts UTF-16 code units, so characters outside the Basic Multilingual Plane count once here and twice in the source.
- AuthContext.InitialSession: a stored user text that parses to something other than an object or `null` is cast unchecked by the source. The model's parse result only distinguishes malformed, `null` and a user.
- The auth context's `loading` flag (false after the first mount effect) and `useAuth`'s provider check: these are React lifecycle concerns.
- Async ordering and React state batching: each submit or request is one sequential step. The transient `isSubmitting = true` while awaiting is not modelled.
- `API_BASE_URL` and its default are the parameter `baseUrl`.
- SaveProfile.Handle compares the method text exactly. The HTTP runtime's upper-casing of standard method names is not modelled. Response bodies are modelled as JSON values, not as their serialised text, so key order is not modelled.
- The intake form's fields, which the page never reads: it writes no profile and raises no update signal. The primary button on the last step does nothing (`GetStarted.PrimaryButton`).

=== FILE: auth_context.dfy ===
/**
 * The authentication context: the session (user and token) held in memory and
 * mirrored into the browser store, the start-up read of that store, and how the
 * sign-up and login requests update the session on success and on failure.
 *
 * `JSON.stringify` of a user and `JSON.parse` of the stored text are parameters;
 * the network exchange is reduced to the reply it produced.
 */
module AuthContext {
  import opened JsValues

  const UserStorageKey := "mamcare.auth.user"
  const TokenStorageKey := "mamcare.auth.token"
  const SignUpPath := "/api/auth/signup"
  const LoginPath := "/api/auth/login"
  const DefaultAuthError := "Authentication failed. Please try again."

  datatype AuthUser = AuthUser(id: string, firstName: string, lastName: string, email: string)

  datatype SignUpPayload = SignUpPayload(firstName: string, lastName: string, email: string, password: string)

  datatype LoginPayload = LoginPayload(email: string, password: string)

  /** The in-memory user and token together with the store they are mirrored into. */
  datatype Session = Session(user: Option<AuthUser>, token: Option<string>, store: Store)

  /** The store with `key` set to `value`, or removed when `value` is None. */
  function Put(store: Store, key: string, value: Option<string>): (r: Store)
    ensures key in r <==> value.Some?
    ensures value.Some? ==> r[key] == value.value
    ensures forall k :: k != key ==> (k in r <==> k in store) && (k in store ==> r[k] == store[k])
  {
    if value.Some? then store[key := value.value] else store - {key}
  }

  /**
   * `persistSession`: set the in-memory user and token, write the user's JSON
   * under the user key when there is a user and remove the key otherwise, and
   * write the token when it is truthy and remove the key otherwise.
   */
  function PersistSession(s: Session, user: Option<AuthUser>, token: Option<string>,
                          stringify: AuthUser -> string): (r: Session)
    ensures r.user == user && r.token == token
    ensures UserStorageKey in r.store <==> user.Some?
    ensures user.Some? ==> r.store[UserStorageKey] == stringify(user.value)
    ensures TokenStorageKey in r.store <==> TruthyString(token)
    ensures TruthyString(token) ==> r.store[TokenStorageKey] == token.value
    ensures forall k :: k != UserStorageKey && k != TokenStorageKey ==>
                          (k in r.store <==> k in s.store) && (k in s.store ==> r.store[k] == s.store[k])
  {
    var userText := if user.Some? then Some(stringify(user.value)) else None;
    var tokenText := if TruthyString(token) then token else None;
    var store := Put(Put(s.store, UserStorageKey, userText), TokenStorageKey, tokenText);
    Session(user, token, store)
  }

  /** `logout`: persist an empty session. No user is serialised, so the serialiser is never called. */
  function Logout(s: Session): (r: Session)
    ensures r.user.None? && r.token.None?
    ensures UserStorageKey !in r.store && TokenStorageKey !in r.store
    ensures forall k :: k != UserStorageKey && k != TokenStorageKey ==>
                          (k in r.store <==> k in s.store) && (k in s.store ==> r.store[k] == s.store[k])
  {
    PersistSession(s, None, None, (u: AuthUser) => "")
  }

  /**
   * `isAuthenticated`: `Boolean(user && token)`. A user is an object, so it is
   * truthy whenever present; a token is truthy when present and non-empty.
   */
  function IsAuthenticated(s: Session): (r: bool)
    ensures r <==> s.user.Some? && s.token.Some? && s.token.value != ""
  {
    s.user.Some? && TruthyString(s.token)
  }

  /** After persisting, the session is authenticated exactly when both user and token are truthy. */
  lemma AuthenticatedAfterPersist(s: Session, user: Option<AuthUser>, token: Option<string>,
                                  stringify: AuthUser -> string)
    ensures IsAuthenticated(PersistSession(s, user, token, stringify)) <==> user.Some? && TruthyString(token)
    ensures !IsAuthenticated(Logout(s))
  {
  }

  /** What `JSON.parse` made of the stored user text. */
  datatype UserParse = Malformed | ParsedNull | ParsedUser(user: AuthUser)

  /**
   * The provider's initial state: the user parsed from the user key when that
   * holds a non-empty text, and the token key's text as it is. A malformed
   * stored user makes `JSON.parse` throw in the initialiser: None.
   */
  function InitialSession(store: Store, parseUser: string -> UserParse): (r: Option<Session>)
    ensures r.None? <==> TruthyString(GetItem(store, UserStorageKey)) && parseUser(store[UserStorageKey]).Malformed?
    ensures r.Some? ==> r.value.store == store && r.value.token == GetItem(store, TokenStorageKey)
    ensures r.Some? && !TruthyString(GetItem(store, UserStorageKey)) ==> r.value.user.None?
    ensures r.Some? && TruthyString(GetItem(store, UserStorageKey)) ==>
              var parsed := parseUser(store[UserStorageKey]);
              (parsed.ParsedNull? ==> r.value.user.None?) && (parsed.ParsedUser? ==> r.value.user == Some(parsed.user))
  {
    var stored := GetItem(store, UserStorageKey);
    var token := GetItem(store, TokenStorageKey);
    if !TruthyString(stored) then Some(Session(None, token, store))
    else
      match parseUser(stored.value)
      case Malformed => None
      case ParsedNull => Some(Session(None, token, store))
      case ParsedUser(u) => Some(Session(Some(u), token, store))
  }

  /**
   * A persisted session survives a reload. When a user serialises to a non-empty
   * text (`JSON.stringify` of an object always does) that parses back to the
   * user, the next start-up sees the same user, the token if it was truthy (an
   * empty token is not stored), and the same authentication verdict.
   */
  lemma PersistThenRestart(s: Session, user: Option<AuthUser>, token: Option<string>,
                          stringify: AuthUser -> string, parseUser: string -> UserParse)
    requires user.Some? ==> stringify(user.value) != ""
    requires user.Some? ==> parseUser(stringify(user.value)) == ParsedUser(user.value)
    ensures var after := PersistSession(s, user, token, stringify);
            var restarted := InitialSession(after.store, parseUser);
            && restarted.Some?
            && restarted.value.user == user
            && restarted.value.token == (if TruthyString(token) then token else None)
            && (IsAuthenticated(restarted.value) <==> IsAuthenticated(after))
  {
  }

  /** After logout, a reload starts with no user and no token. */
  lemma LogoutThenRestart(s: Session, parseUser: string -> UserParse)
    ensures InitialSession(Logout(s).store, parseUser) == Some(Session(None, None, Logout(s).store))
  {
  }

  /** A request to the authentication server: the URL and the JSON body's fields. */
  datatype Request = Request(url: string, body: map<string, string>)

  function SignUpRequest(baseUrl: string, p: SignUpPayload): (r: Request)
    ensures r.url == baseUrl + SignUpPath
    ensures r.body.Keys == {"firstName", "lastName", "email", "password"}
    ensures r.body["firstName"] == p.firstName && r.body["lastName"] == p.lastName
    ensures r.body["password"] == p.password && r.body["email"] == p.email
  {
    Request(baseUrl + SignUpPath,
            map["firstName" := p.firstName, "lastName" := p.lastName, "email" := p.email, "password" := p.password])
  }

  function LoginRequest(baseUrl: string, p: LoginPayload): (r: Request)
    ensures r.url == baseUrl + LoginPath
    ensures r.body.Keys == {"email", "password"}
    ensures r.body["password"] == p.password && r.body["email"] == p.email
  {
    Request(baseUrl + LoginPath, map["email" := p.email, "password" := p.password])
  }

  /**
   * How the server's exchange ended:
   * - Accepted: an ok response whose body held `user` and `token` (None when missing);
   * - Rejected: a non-ok response, with its body's `error` text when the body
   *   parsed and had one;
   * - Failed: `fetch` or reading the ok body threw an Error with this message,
   *   or a non-ok body parsed to JSON `null`, so that reading its `error`
   *   threw a TypeError with this message, or an ok body parsed to JSON `null`,
   *   so that destructuring `{ token, user }` from it threw a TypeError.
   */
  datatype AuthReply =
    | Accepted(user: Option<AuthUser>, token: Option<string>)
    | Rejected(errorField: Option<string>)
    | Failed(message: string)

  /** `errorBody.error || DEFAULT`: the server's text when it is non-empty. */
  function RejectionMessage(errorField: Option<string>): (r: string)
    ensures r != ""
    ensures TruthyString(errorField) ==> r == errorField.value
    ensures !TruthyString(errorField) ==> r == DefaultAuthError
  {
    if TruthyString(errorField) then errorField.value else DefaultAuthError
  }

  /** The session after a sign-up or login call, and the message it threw (None when it resolved). */
  datatype AuthOutcome = AuthOutcome(session: Session, error: Option<string>)

  /**
   * `signUp` and `login` after the request: an accepted reply is persisted as
   * the new session; any other reply throws and leaves the session as it was.
   */
  function CompleteAuth(s: Session, reply: AuthReply, stringify: AuthUser -> string): (r: AuthOutcome)
    ensures r.error.None? <==> reply.Accepted?
    ensures reply.Accepted? ==> r.session == PersistSession(s, reply.user, reply.token, stringify)
    ensures !reply.Accepted? ==> r.session == s
    ensures reply.Rejected? ==> r.error == Some(RejectionMessage(reply.errorField))
    ensures reply.Failed? ==> r.error == Some(reply.message)
  {
    match reply
    case Accepted(user, token) => AuthOutcome(PersistSession(s, user, token, stringify), None)
    case Rejected(field) => AuthOutcome(s, Some(RejectionMessage(field)))
    case Failed(message) => AuthOutcome(s, Some(message))
  }
}

=== FILE: calendar.dfy ===
/**
 * Proleptic Gregorian calendar dates as day numbers (day 0 is 1970-01-01).
 * The model measures dates in whole local days; this conversion lets the
 * worked examples be written with calendar dates.
 */
module Calendar {

  predicate IsLeapYear(y: int) {
    y % 4 == 0 && (y % 100 != 0 || y % 400 == 0)
  }

  /** The number of days in month `m` of year `y`. */
  function DaysInMonth(y: int, m: int): (r: int)
    requires 1 <= m <= 12
    ensures 28 <= r <= 31
    ensures m == 2 ==> (r == 29 <==> IsLeapYear(y))
  {
    if m == 2 then (if IsLeapYear(y) then 29 else 28)
    else if m == 4 || m == 6 || m == 9 || m == 11 then 30
    else 31
  }

  /** A real calendar date: a month of the year and a day of that month. */
  predicate ValidDate(y: int, m: int, d: int) {
    1 <= m <= 12 && 1 <= d <= DaysInMonth(y, m)
  }

  /** The day number of year `y`, month `m`, day `d`, counting March-based years. */
  function CivilDay(y: int, m: int, d: int): int
    requires ValidDate(y, m, d)
  {
    var y' := if m <= 2 then y - 1 else y;
    var era := y' / 400;
    var yoe := y' - era * 400;
    var mp := if m > 2 then m - 3 else m + 9;
    var doy := (153 * mp + 2) / 5 + d - 1;
    var doe := yoe * 365 + yoe / 4 - yoe / 100 + doy;
    era * 146097 + doe - 719468
  }
}

=== FILE: dashboard.dfy ===
/**
 * The dashboard page: loading the stored pregnancy profile into the page state,
 * deriving the pregnancy-progress snapshot from the profile and the current day,
 * and the total text mappers used to display the profile.
 *
 * Dates are whole local days (integers). Reading a date out of a profile field
 * (`new Date(field)` followed by `setHours(0, 0, 0, 0)`) is the parameter
 * `dayOf`, and "today" is the parameter `today`.
 */
module Dashboard {
  import opened JsValues
  import opened JsStrings
  import Calendar
  import AuthContext

  const ProfileStorageKey := "mamacare.profile"
  const RemindersKey := "reminders"
  const DueDateKey := "dueDate"
  const LmpKey := "lastMenstrualPeriod"
  const CalculationMethodKey := "calculationMethod"

  /** Forty weeks: the full term counted from the last menstrual period. */
  const GestationDays := 280

  /** A profile as held in the page state: a JavaScript object. */
  type Profile = map<string, Json>

  datatype DashboardState = DashboardState(profile: Option<Profile>, loading: bool)

  /** Before the first load: no profile, and the spinner is shown. */
  const InitialState := DashboardState(None, true)

  /** The reminder settings a profile gets when it has none. */
  const DefaultReminders := JObj(map[
    "appointments" := JBool(true),
    "medications" := JBool(true),
    "tips" := JBool(true),
    "emergency" := JBool(true)])

  // ---------------------------------------------------------------------------
  // Loading the profile
  // ---------------------------------------------------------------------------

  /**
   * The object `{...parsed, reminders: parsed.reminders || DefaultReminders}`, or
   * None when building it throws (reading `reminders` of `null`).
   */
  function LoadedProfile(parsed: Json): (r: Option<Profile>)
    ensures r.None? <==> parsed.JNull?
    ensures r.Some? ==> r.value.Keys == OwnProperties(parsed).Keys + {RemindersKey}
    ensures r.Some? ==> forall k :: k in OwnProperties(parsed) && k != RemindersKey ==>
                                      r.value[k] == OwnProperties(parsed)[k]
    ensures r.Some? && TruthyRead(Property(parsed, RemindersKey)) ==>
              r.value[RemindersKey] == OwnProperties(parsed)[RemindersKey]
    ensures r.Some? && !TruthyRead(Property(parsed, RemindersKey)) ==>
              r.value[RemindersKey] == DefaultReminders
  {
    match Property(parsed, RemindersKey)
    case Threw => None
    case Undefined => Some(OwnProperties(parsed)[RemindersKey := DefaultReminders])
    case Defined(v) =>
      Some(OwnProperties(parsed)[RemindersKey := if Truthy(v) then v else DefaultReminders])
  }

  /**
   * One run of the page's `loadProfile`: read the stored text, parse it with
   * `parse` (None when `JSON.parse` throws), and update the state. Parse errors
   * are caught and logged, leaving the previous profile in place.
   */
  function LoadProfile(state: DashboardState, store: Store, parse: string -> Option<Json>): (r: DashboardState)
    ensures !r.loading
    ensures !TruthyString(GetItem(store, ProfileStorageKey)) ==> r.profile.None?
    ensures TruthyString(GetItem(store, ProfileStorageKey)) ==>
              var text := store[ProfileStorageKey];
              && (parse(text).None? ==> r.profile == state.profile)
              && (parse(text) == Some(JNull) ==> r.profile == state.profile)
              && (parse(text).Some? && !parse(text).value.JNull? ==>
                    r.profile.Some? && r.profile == LoadedProfile(parse(text).value))
  {
    var saved := GetItem(store, ProfileStorageKey);
    if TruthyString(saved) then
      match parse(saved.value)
      case None => state.(loading := false)
      case Some(parsed) =>
        match LoadedProfile(parsed)
        case None => state.(loading := false)
        case Some(p) => DashboardState(Some(p), false)
    else
      DashboardState(None, false)
  }

  /**
   * Every change signal (another tab's write, the same-tab notification, regained
   * focus) just runs `loadProfile` again; running it twice on an unchanged store
   * gives the state it gave once.
   */
  lemma ReloadIsIdempotent(state: DashboardState, store: Store, parse: string -> Option<Json>)
    ensures LoadProfile(LoadProfile(state, store, parse), store, parse) == LoadProfile(state, store, parse)
  {
  }

  /**
   * A stored object with truthy reminders loads as exactly that object; one without
   * them loads as that object with the default reminders added.
   */
  lemma {:induction false} LoadRoundTrip(state: DashboardState, store: Store, parse: string -> Option<Json>, m: Profile)
    requires TruthyString(GetItem(store, ProfileStorageKey))
    requires parse(store[ProfileStorageKey]) == Some(JObj(m))
    ensures RemindersKey in m && Truthy(m[RemindersKey]) ==>
              LoadProfile(state, store, parse).profile == Some(m)
    ensures !(RemindersKey in m && Truthy(m[RemindersKey])) ==>
              LoadProfile(state, store, parse).profile == Some(m[RemindersKey := DefaultReminders])
  {
    var r := LoadProfile(state, store, parse).profile;
    assert r == LoadedProfile(JObj(m));
    assert OwnProperties(JObj(m)) == m;
    if RemindersKey in m && Truthy(m[RemindersKey]) {
      assert TruthyRead(Property(JObj(m), RemindersKey));
      var loaded := r.value;
      assert loaded[RemindersKey] == m[RemindersKey];
      assert loaded.Keys == m.Keys;
      assert forall k :: k in m ==> loaded[k] == m[k];
      assert loaded == m;
    }
  }

  /**
   * Only a parse failure (or a stored `null`) lets the previous profile survive:
   * whenever the stored text is absent, empty, or parses to a non-null value,
   * the loaded state does not depend on the state before.
   */
  lemma LoadForgetsPrevious(s1: DashboardState, s2: DashboardState, store: Store, parse: string -> Option<Json>)
    requires !TruthyString(GetItem(store, ProfileStorageKey))
             || (parse(store[ProfileStorageKey]).Some? && !parse(store[ProfileStorageKey]).value.JNull?)
    ensures LoadProfile(s1, store, parse) == LoadProfile(s2, store, parse)
  {
  }

  /**
   * A first visit: the page starts with no profile and the spinner shown, so
   * after the first load the spinner is gone, and a missing, empty, unparseable
   * or `null` stored value leaves the page without a profile.
   */
  lemma FirstLoad(store: Store, parse: string -> Option<Json>)
    ensures var r := LoadProfile(InitialState, store, parse);
            && !r.loading
            && (r.profile.None? <==>
                  || !TruthyString(GetItem(store, ProfileStorageKey))
                  || parse(store[ProfileStorageKey]).None?
                  || parse(store[ProfileStorageKey]) == Some(JNull))
  {
  }

  /** Logging out touches only the session keys, so the next load sees the same profile. */
  lemma LogoutKeepsProfile(state: DashboardState, session: AuthContext.Session, parse: string -> Option<Json>)
    ensures LoadProfile(state, AuthContext.Logout(session).store, parse) == LoadProfile(state, session.store, parse)
  {
  }

  // ---------------------------------------------------------------------------
  // The progress calculation
  // ---------------------------------------------------------------------------

  /** The snapshot the page shows: completed weeks and days, percent of term, due day. */
  datatype Progress = Progress(weeks: int, days: int, percentage: real, dueDate: Option<int>)

  const ZeroProgress := Progress(0, 0, 0.0, None)

  /**
   * JavaScript's `%` by a positive divisor (section 6.1.6.1.6 of ECMA-262): the
   * remainder `r` differs from `a` by a multiple of `b`, has the sign of the
   * dividend and is smaller than `b` in magnitude. Dafny's own `%` is Euclidean
   * and never negative, so the two differ for a negative dividend.
   */
  function TruncRem(a: int, b: int): (r: int)
    requires b > 0
    ensures (a - r) % b == 0
    ensures a >= 0 ==> 0 <= r < b
    ensures a < 0 ==> -b < r <= 0
  {
    if a >= 0 then
      var r := a % b;
      assert a - r == (a / b) * b;
      MultipleHasNoRemainder(a / b, b);
      r
    else
      var r := -((-a) % b);
      assert a - r == (-((-a) / b)) * b;
      MultipleHasNoRemainder(-((-a) / b), b);
      r
  }

  /** A multiple of `b` leaves remainder 0: the uniqueness of Euclidean division. */
  lemma MultipleHasNoRemainder(k: int, b: int)
    requires b > 0
    ensures (k * b) % b == 0
  {
    var x := k * b;
    var d := k - x / b;
    assert x == (x / b) * b + x % b;
    assert d * b == x % b by {
      assert d * b == k * b - (x / b) * b;
    }
    if d >= 1 {
      ProductAtLeast(d, b);
    }
  }

  lemma ProductAtLeast(d: int, b: int)
    requires d >= 1 && b > 0
    ensures d * b >= b
  {
    assert d * b == (d - 1) * b + b;
  }

  function MaxInt(a: int, b: int): int { if a >= b then a else b }
  function MaxReal(a: real, b: real): real { if a >= b then a else b }
  function MinReal(a: real, b: real): real { if a <= b then a else b }

  /**
   * What a snapshot means for a given number of elapsed days: weeks and days are
   * the elapsed count split into whole weeks and a remainder (both zero before
   * term starts), and the percentage is the elapsed share of 280 days, clamped
   * to [0, 100].
   */
  predicate Measures(p: Progress, elapsed: int) {
    && 0 <= p.weeks && 0 <= p.days < 7
    && (elapsed >= 0 ==> p.weeks * 7 + p.days == elapsed)
    && (elapsed < 0 ==> p.weeks == 0 && p.days == 0)
    && 0.0 <= p.percentage <= 100.0
    && (elapsed <= 0 ==> p.percentage == 0.0)
    && (elapsed >= GestationDays ==> p.percentage == 100.0)
    && (0 < elapsed < GestationDays ==> p.percentage == (elapsed as real) * 100.0 / (GestationDays as real))
  }

  /**
   * The snapshot for a due day that lies `GestationDays - elapsed` days ahead:
   * `max(0, floor(elapsed / 7))` weeks (Dafny's `/` by a positive divisor is
   * the floor), `max(0, elapsed % 7)` days with JavaScript's remainder, and the
   * clamped percentage.
   */
  function Snapshot(elapsed: int, due: int): (r: Progress)
    ensures r.dueDate == Some(due)
    ensures Measures(r, elapsed)
  {
    var weeks := MaxInt(0, elapsed / 7);
    var days := MaxInt(0, TruncRem(elapsed, 7));
    var percentage := MinReal(MaxReal((elapsed as real) / (GestationDays as real) * 100.0, 0.0), 100.0);
    Progress(weeks, days, percentage, Some(due))
  }

  /** Measures pins a snapshot down completely: there is one meaning per elapsed count. */
  lemma {:induction false} MeasuresIsUnique(p: Progress, q: Progress, elapsed: int)
    requires Measures(p, elapsed) && Measures(q, elapsed) && p.dueDate == q.dueDate
    ensures p == q
  {
  }

  /** A profile field is present when the property exists and is truthy. */
  predicate HasField(p: Profile, key: string) {
    key in p && Truthy(p[key])
  }

  /**
   * `calculatePregnancyProgress`: the due day is the `dueDate` field whenever it
   * is present, whatever `calculationMethod` says, and otherwise the
   * `lastMenstrualPeriod` day plus 280; with neither, or with no profile, the
   * zero snapshot. Elapsed days are `280 - (due - today)`.
   */
  function CalculatePregnancyProgress(profile: Option<Profile>, today: int, dayOf: Json -> int): (r: Progress)
    ensures profile.None? ==> r == ZeroProgress
    ensures profile.Some? && HasField(profile.value, DueDateKey) ==>
              r.dueDate == Some(dayOf(profile.value[DueDateKey]))
    ensures profile.Some? && !HasField(profile.value, DueDateKey) && HasField(profile.value, LmpKey) ==>
              r.dueDate == Some(dayOf(profile.value[LmpKey]) + GestationDays)
    ensures profile.Some? && !HasField(profile.value, DueDateKey) && !HasField(profile.value, LmpKey) ==>
              r == ZeroProgress
    ensures 0 <= r.weeks && 0 <= r.days <= 6 && 0.0 <= r.percentage <= 100.0
    ensures r.dueDate.Some? ==> Measures(r, GestationDays - (r.dueDate.value - today))
  {
    if profile.None? then ZeroProgress
    else
      var p := profile.value;
      var due :=
        if HasField(p, DueDateKey) then Some(dayOf(p[DueDateKey]))
        else if HasField(p, LmpKey) then Some(dayOf(p[LmpKey]) + GestationDays)
        else None;
      match due
      case None => ZeroProgress
      case Some(d) =>
        var diffDays := d - today;
        Snapshot(GestationDays - diffDays, d)
  }

  /** The `calculationMethod` field never influences the snapshot. */
  lemma MethodIsIgnored(p: Profile, methodValue: Json, today: int, dayOf: Json -> int)
    ensures CalculatePregnancyProgress(Some(p[CalculationMethodKey := methodValue]), today, dayOf)
         == CalculatePregnancyProgress(Some(p), today, dayOf)
  {
  }

  /**
   * Weeks have no upper bound: once the due day is more than a week past, the
   * count passes 40 weeks while the percentage stays at 100.
   */
  lemma OverdueKeepsCounting(profile: Option<Profile>, today: int, dayOf: Json -> int)
    requires var r := CalculatePregnancyProgress(profile, today, dayOf);
             r.dueDate.Some? && r.dueDate.value + 7 <= today
    ensures CalculatePregnancyProgress(profile, today, dayOf).weeks > 40
    ensures CalculatePregnancyProgress(profile, today, dayOf).percentage == 100.0
  {
  }

  /** Worked example: the last period began today, so nothing has elapsed; due 2024-10-07. */
  lemma ExampleLmpToday(dayOf: Json -> int)
    requires dayOf(JStr("2024-01-01")) == Calendar.CivilDay(2024, 1, 1)
    ensures var p := map[CalculationMethodKey := JStr("lastMenstrualPeriod"), LmpKey := JStr("2024-01-01")];
            CalculatePregnancyProgress(Some(p), Calendar.CivilDay(2024, 1, 1), dayOf)
              == Progress(0, 0, 0.0, Some(Calendar.CivilDay(2024, 10, 7)))
  {
  }

  /** Worked example: due 2024-12-25 seen on 2024-06-25, 183 days ahead, is 13 weeks and 6 days. */
  lemma ExampleDueInHalfYear(dayOf: Json -> int)
    requires dayOf(JStr("2024-12-25")) == Calendar.CivilDay(2024, 12, 25)
    ensures var p := map[CalculationMethodKey := JStr("dueDate"), DueDateKey := JStr("2024-12-25")];
            var r := CalculatePregnancyProgress(Some(p), Calendar.CivilDay(2024, 6, 25), dayOf);
            r.weeks == 13 && r.days == 6 && r.percentage == 97.0 * 100.0 / 280.0
  {
  }

  // ---------------------------------------------------------------------------
  // Display mappers
  // ---------------------------------------------------------------------------

  const NotSpecified := "Not specified"

  /** `formatDate`: an absent or empty value reads "Not specified"; any other goes to the locale renderer. */
  function FormatDate(dateString: Option<string>, render: string -> string): (r: string)
    ensures !TruthyString(dateString) ==> r == NotSpecified
    ensures TruthyString(dateString) ==> r == render(dateString.value)
  {
    if !TruthyString(dateString) then NotSpecified else render(dateString.value)
  }

  /** The labels of the known pregnancy-number codes. */
  const PregnancyNumberLabels: map<string, string> := map[
    "first" := "First Pregnancy",
    "second" := "Second Pregnancy",
    "third" := "Third Pregnancy",
    "more" := "More than Three Pregnancies"]

  /** `formatPregnancyNumber`: the label of a known code, any other text unchanged. */
  function FormatPregnancyNumber(num: string): (r: string)
    ensures num in PregnancyNumberLabels ==> r == PregnancyNumberLabels[num]
    ensures num !in PregnancyNumberLabels ==> r == num
    ensures r !in PregnancyNumberLabels
  {
    if num == "first" then "First Pregnancy"
    else if num == "second" then "Second Pregnancy"
    else if num == "third" then "Third Pregnancy"
    else if num == "more" then "More than Three Pregnancies"
    else num
  }

  /** The labels of the known communication-method codes. */
  const CommunicationLabels: map<string, string> := map[
    "app" := "App Notifications Only (Free)",
    "sms" := "SMS + App Notifications (Premium)",
    "email" := "Email + App Notifications (Free)"]

  /** `formatCommunicationMethod`: the label of a known code, any other text unchanged. */
  function FormatCommunicationMethod(code: string): (r: string)
    ensures code in CommunicationLabels ==> r == CommunicationLabels[code]
    ensures code !in CommunicationLabels ==> r == code
    ensures r !in CommunicationLabels
  {
    if code == "app" then "App Notifications Only (Free)"
    else if code == "sms" then "SMS + App Notifications (Premium)"
    else if code == "email" then "Email + App Notifications (Free)"
    else code
  }

  /** Formatting a code twice gives what formatting it once gave. */
  lemma FormattersAreIdempotent(s: string)
    ensures FormatPregnancyNumber(FormatPregnancyNumber(s)) == FormatPregnancyNumber(s)
    ensures FormatCommunicationMethod(FormatCommunicationMethod(s)) == FormatCommunicationMethod(s)
  {
  }

  /** `formatLanguage`: the first character upper-cased, the rest untouched. */
  function FormatLanguage(lang: string): (r: string)
    ensures |r| == |lang|
    ensures lang != [] ==> r[0] == AsciiUpper(lang[0]) && r[1..] == lang[1..]
  {
    if lang == [] then [] else [AsciiUpper(lang[0])] + lang[1..]
  }

  lemma FormatLanguageIsIdempotent(lang: string)
    ensures FormatLanguage(FormatLanguage(lang)) == FormatLanguage(lang)
  {
  }

  /** `${profile.key || ""}` for a name field: the text when it is a string, "" when absent. */
  function NameText(p: Profile, key: string): string {
    if key in p && p[key].JStr? then p[key].s else ""
  }

  /**
   * The greeting name: first and last name joined by a space and trimmed,
   * falling back to "User" when nothing but whitespace is left.
   */
  function FullName(p: Profile): (r: string)
    ensures r != []
    ensures var joined := NameText(p, "firstName") + " " + NameText(p, "lastName");
            && (AllWhitespace(joined) ==> r == "User")
            && (!AllWhitespace(joined) ==> r == Trim(joined))
  {
    var t := Trim(NameText(p, "firstName") + " " + NameText(p, "lastName"));
    if t == [] then "User" else t
  }
}

=== FILE: get_started.dfy ===
/**
 * The intake form's step counter: four steps, forward and backward moves that
 * stop at the ends, and the progress bar derived from the current step.
 */
module GetStarted {

  const TotalSteps := 4

  /** The page opens on the first step. */
  const InitialStep := 1

  predicate InRange(step: int) {
    1 <= step <= TotalSteps
  }

  /** `nextStep`: advance unless already on the last step. */
  function NextStep(step: int): (r: int)
    ensures InRange(step) ==> InRange(r)
    ensures step < TotalSteps ==> r == step + 1
    ensures step >= TotalSteps ==> r == step
  {
    if step < TotalSteps then step + 1 else step
  }

  /** `prevStep`: go back unless already on the first step. */
  function PrevStep(step: int): (r: int)
    ensures InRange(step) ==> InRange(r)
    ensures step > 1 ==> r == step - 1
    ensures step <= 1 ==> r == step
  {
    if step > 1 then step - 1 else step
  }

  /** Away from the ends, each move undoes the other. */
  lemma NextAndPrevAreInverse(step: int)
    ensures 1 <= step < TotalSteps ==> PrevStep(NextStep(step)) == step
    ensures 1 < step <= TotalSteps ==> NextStep(PrevStep(step)) == step
  {
  }

  /**
   * The primary button: "Next" on steps 1 to 3, and on the last step a
   * "Complete Setup" button whose handler does nothing. It writes no profile and
   * raises no update signal.
   */
  function PrimaryButton(step: int): (r: int)
    ensures step == TotalSteps ==> r == step
    ensures step != TotalSteps ==> r == NextStep(step)
    ensures InRange(step) ==> InRange(r)
  {
    if step == TotalSteps then step else NextStep(step)
  }

  /** The primary button's caption. */
  function PrimaryLabel(step: int): (r: string)
    ensures r == "Complete Setup" <==> step == TotalSteps
    ensures r != "Complete Setup" ==> r == "Next"
  {
    if step == TotalSteps then "Complete Setup" else "Next"
  }

  /** `progress = step / totalSteps * 100`. */
  function Progress(step: int): (r: real)
    ensures InRange(step) ==> r == 25.0 || r == 50.0 || r == 75.0 || r == 100.0
    ensures r == 100.0 <==> step == TotalSteps
    ensures r * (TotalSteps as real) == (step as real) * 100.0
  {
    (step as real) / (TotalSteps as real) * 100.0
  }

  /**
   * On every step the primary button does what `nextStep` does: its no-op on
   * the last step is `nextStep`'s own stop at the end.
   */
  lemma PrimaryActsAsNext(step: int)
    ensures PrimaryButton(step) == NextStep(step)
  {
  }

  /**
   * The two buttons the page renders: "Previous", and the primary button
   * ("Next" or "Complete Setup"), the only way to reach `nextStep`.
   */
  datatype Press = Previous | Primary

  /** The step after a press: one step at most, back for Previous and forward for the primary button. */
  function Apply(step: int, press: Press): (r: int)
    ensures InRange(step) ==> InRange(r)
    ensures step - 1 <= r <= step + 1
    ensures press == Previous ==> r <= step
    ensures press == Primary ==> step <= r
  {
    match press
    case Previous => PrevStep(step)
    case Primary => PrimaryButton(step)
  }

  /** The step after a whole sequence of presses: each press moves it by one at most. */
  function Run(step: int, presses: seq<Press>): (r: int)
    ensures step - |presses| <= r <= step + |presses|
    decreases |presses|
  {
    if presses == [] then step else Run(Apply(step, presses[0]), presses[1..])
  }

  /** However the buttons are pressed, the step stays between 1 and 4. */
  lemma {:induction false} RunStaysInRange(step: int, presses: seq<Press>)
    requires InRange(step)
    ensures InRange(Run(step, presses))
    decreases |presses|
  {
    if presses != [] {
      RunStaysInRange(Apply(step, presses[0]), presses[1..]);
    }
  }

  /** From the first step, `n` presses of the primary button reach step `min(1 + n, 4)`. */
  lemma {:induction false} PrimaryPressesReach(n: nat)
    ensures Run(InitialStep, seq(n, _ => Primary)) == if 1 + n <= TotalSteps then 1 + n else TotalSteps
  {
    PrimaryPressesFrom(InitialStep, n);
  }

  lemma {:induction false} PrimaryPressesFrom(step: int, n: nat)
    requires InRange(step)
    ensures Run(step, seq(n, _ => Primary)) == if step + n <= TotalSteps then step + n else TotalSteps
    decreases n
  {
    if n > 0 {
      var presses := seq(n, _ => Primary);
      assert presses[0] == Primary;
      assert presses[1..] == seq(n - 1, _ => Primary);
      PrimaryPressesFrom(PrimaryButton(step), n - 1);
    }
  }
}

=== FILE: js_strings.dfy ===
/**
 * The few JavaScript string operations the application relies on:
 * decimal rendering of non-negative integers (array indices, clock readings),
 * `String.prototype.trim`, and upper-casing of a single character.
 */
module JsStrings {

  predicate IsDigit(c: char) {
    '0' <= c <= '9'
  }

  /** The decimal digit character for `d`. */
  function DigitChar(d: nat): (c: char)
    requires d < 10
    ensures IsDigit(c)
    ensures c as int - '0' as int == d
  {
    (('0' as int) + d) as char
  }

  /**
   * `String(n)` for a non-negative integer below 10^21: its decimal digits,
   * without leading zeros. From 10^21 up JavaScript switches to exponent form;
   * no clock reading or index the application renders comes near that bound.
   */
  function DecimalString(n: nat): (r: string)
    ensures 1 <= |r|
    ensures forall i :: 0 <= i < |r| ==> IsDigit(r[i])
    ensures r[0] == '0' ==> n == 0
    ensures n < 10 <==> |r| == 1
  {
    if n < 10 then [DigitChar(n)] else DecimalString(n / 10) + [DigitChar(n % 10)]
  }

  /** The number a string of decimal digits denotes; the inverse of DecimalString. */
  function DecimalValue(s: string): nat
    requires forall i :: 0 <= i < |s| ==> IsDigit(s[i])
  {
    if |s| == 0 then 0
    else
      assert IsDigit(s[|s| - 1]);
      DecimalValue(s[..|s| - 1]) * 10 + (s[|s| - 1] as int - '0' as int)
  }

  /** Reading back a rendered integer yields the integer. */
  lemma {:induction false} DecimalRoundTrip(n: nat)
    ensures DecimalValue(DecimalString(n)) == n
  {
    if n >= 10 {
      DecimalRoundTrip(n / 10);
      var r := DecimalString(n);
      assert r[..|r| - 1] == DecimalString(n / 10);
    }
  }

  /** Distinct integers render to distinct strings, so index keys never collide. */
  lemma DecimalInjective(a: nat, b: nat)
    ensures DecimalString(a) == DecimalString(b) ==> a == b
  {
    DecimalRoundTrip(a);
    DecimalRoundTrip(b);
  }

  lemma AllDecimalInjective()
    ensures forall a: nat, b: nat :: DecimalString(a) == DecimalString(b) ==> a == b
  {
    forall a: nat, b: nat
      ensures DecimalString(a) == DecimalString(b) ==> a == b
    {
      DecimalInjective(a, b);
    }
  }

  /**
   * The WhiteSpace and LineTerminator code points of ECMAScript (sections 12.2
   * and 12.3 of ECMA-262): tab, vertical tab, form feed, space, no-break space,
   * byte-order mark, the Unicode space separators, and the four line terminators.
   * These are exactly the characters `trim` removes.
   */
  predicate IsJsWhitespace(c: char) {
    || c == '\U{0009}' || c == '\U{000A}' || c == '\U{000B}' || c == '\U{000C}'
    || c == '\U{000D}' || c == '\U{0020}' || c == '\U{00A0}' || c == '\U{1680}'
    || ('\U{2000}' <= c <= '\U{200A}')
    || c == '\U{2028}' || c == '\U{2029}' || c == '\U{202F}' || c == '\U{205F}'
    || c == '\U{3000}' || c == '\U{FEFF}'
  }

  predicate AllWhitespace(s: string) {
    forall i :: 0 <= i < |s| ==> IsJsWhitespace(s[i])
  }

  /** `s` with its leading whitespace removed. */
  function TrimStart(s: string): (r: string)
    ensures |r| <= |s| && r == s[|s| - |r|..]
    ensures AllWhitespace(s[..|s| - |r|])
    ensures r == [] || !IsJsWhitespace(r[0])
  {
    if s != [] && IsJsWhitespace(s[0]) then TrimStart(s[1..]) else s
  }

  /** `s` with its trailing whitespace removed. */
  function TrimEnd(s: string): (r: string)
    ensures |r| <= |s| && r == s[..|r|]
    ensures AllWhitespace(s[|r|..])
    ensures r == [] || !IsJsWhitespace(r[|r| - 1])
  {
    if s != [] && IsJsWhitespace(s[|s| - 1]) then TrimEnd(s[..|s| - 1]) else s
  }

  /** `r` is the infix of `s` at `lo`, and everything around it is whitespace. */
  predicate SurroundedBy(r: string, s: string, lo: int) {
    && 0 <= lo <= |s| - |r|
    && r == s[lo..lo + |r|]
    && AllWhitespace(s[..lo])
    && AllWhitespace(s[lo + |r|..])
  }

  /**
   * `String.prototype.trim`: the longest infix of `s` that neither starts nor
   * ends with whitespace, and the empty string when `s` is all whitespace.
   */
  function Trim(s: string): (r: string)
    ensures r == [] <==> AllWhitespace(s)
    ensures r != [] ==> !IsJsWhitespace(r[0]) && !IsJsWhitespace(r[|r| - 1])
    ensures exists lo :: SurroundedBy(r, s, lo)
  {
    var t := TrimStart(s);
    var r := TrimEnd(t);
    InfixAfterBothEnds(s, t, r);
    EmptyAfterBothEnds(s, t, r);
    r
  }

  /** Dropping whitespace from the front and then from the back leaves a surrounded infix. */
  lemma InfixAfterBothEnds(s: string, t: string, r: string)
    requires |t| <= |s| && t == s[|s| - |t|..] && AllWhitespace(s[..|s| - |t|])
    requires |r| <= |t| && r == t[..|r|] && AllWhitespace(t[|r|..])
    ensures SurroundedBy(r, s, |s| - |t|)
  {
    var lo := |s| - |t|;
    assert r == s[lo..lo + |r|] by {
      assert t[..|r|] == s[lo..lo + |r|];
    }
    assert s[lo + |r|..] == t[|r|..];
  }

  /** Trimming both ends leaves nothing exactly when everything was whitespace. */
  lemma EmptyAfterBothEnds(s: string, t: string, r: string)
    requires |t| <= |s| && t == s[|s| - |t|..] && AllWhitespace(s[..|s| - |t|])
    requires t == [] || !IsJsWhitespace(t[0])
    requires |r| <= |t| && r == t[..|r|] && AllWhitespace(t[|r|..])
    ensures r == [] <==> AllWhitespace(s)
  {
    var lo := |s| - |t|;
    assert s == s[..lo] + t;
    if r == [] {
      assert t == t[|r|..];
    }
  }

  /** `toUpperCase` of one character, for the ASCII letters; every other character is kept. */
  function AsciiUpper(c: char): (u: char)
    ensures 'a' <= c <= 'z' ==> 'A' <= u <= 'Z' && u as int - 'A' as int == c as int - 'a' as int
    ensures !('a' <= c <= 'z') ==> u == c
  {
    if 'a' <= c <= 'z' then (c as int - 'a' as int + 'A' as int) as char else c
  }
}

=== FILE: js_values.dfy ===
/**
 * JavaScript values as the application sees them: nullable results, the browser's
 * string key-value store, values produced by `JSON.parse`, the truthiness test
 * behind `if (x)` and `x || y`, property reads, and object spread (`{...v}`).
 */
module JsValues {
  import opened JsStrings

  /** `null` / `undefined` versus a present value. */
  datatype Option<+T> = None | Some(value: T)

  /** The browser's `localStorage`: string keys to string values. */
  type Store = map<string, string>

  /** `localStorage.getItem(key)`: the stored string, or `null` when the key is absent. */
  function GetItem(store: Store, key: string): (r: Option<string>)
    ensures r.Some? <==> key in store
    ensures r.Some? ==> r.value == store[key]
  {
    if key in store then Some(store[key]) else None
  }

  /** A value produced by `JSON.parse`. Numbers are exact; JSON cannot denote NaN. */
  datatype Json =
    | JNull
    | JBool(b: bool)
    | JNum(n: real)
    | JStr(s: string)
    | JArr(items: seq<Json>)
    | JObj(fields: map<string, Json>)

  /**
   * JavaScript truthiness: `null`, `false`, `0` and `""` are falsy, everything
   * else (including empty arrays and objects) truthy.
   */
  function Truthy(v: Json): (r: bool)
    ensures !r <==> v == JNull || v == JBool(false) || v == JNum(0.0) || v == JStr("")
  {
    match v
    case JNull => false
    case JBool(b) => b
    case JNum(n) => n != 0.0
    case JStr(s) => s != ""
    case JArr(_) => true
    case JObj(_) => true
  }

  /** A nullable string's truthiness: `null` is falsy, a string is truthy exactly when it is non-empty. */
  function TruthyString(s: Option<string>): (r: bool)
    ensures r <==> s != None && s != Some("")
    ensures s.Some? ==> (r <==> Truthy(JStr(s.value)))
  {
    s.Some? && s.value != ""
  }

  /** A string's characters, each under its decimal index. */
  function CharProperties(s: string): (r: map<string, Json>)
    ensures forall i :: 0 <= i < |s| ==> DecimalString(i) in r && r[DecimalString(i)] == JStr([s[i]])
    ensures forall k :: k in r ==> exists i :: 0 <= i < |s| && k == DecimalString(i)
  {
    AllDecimalInjective();
    map i | 0 <= i < |s| :: DecimalString(i) := JStr([s[i]])
  }

  /** An array's elements, each under its decimal index. */
  function ElementProperties(a: seq<Json>): (r: map<string, Json>)
    ensures forall i :: 0 <= i < |a| ==> DecimalString(i) in r && r[DecimalString(i)] == a[i]
    ensures forall k :: k in r ==> exists i :: 0 <= i < |a| && k == DecimalString(i)
  {
    AllDecimalInjective();
    map i | 0 <= i < |a| :: DecimalString(i) := a[i]
  }

  /**
   * The own enumerable properties of a value, which is what `{...v}` copies:
   * an object's fields, a string's characters or an array's elements under
   * their decimal index, and nothing for `null`, booleans and numbers.
   */
  function OwnProperties(v: Json): (r: map<string, Json>)
    ensures v.JObj? ==> r == v.fields
    ensures v.JStr? ==> r == CharProperties(v.s)
    ensures v.JArr? ==> r == ElementProperties(v.items)
    ensures v.JNull? || v.JBool? || v.JNum? ==> r == map[]
    ensures !v.JObj? ==> forall k :: k in r ==> k != [] && IsDigit(k[0])
  {
    match v
    case JObj(m) => m
    case JStr(s) => CharProperties(s)
    case JArr(a) => ElementProperties(a)
    case _ => map[]
  }

  /** The outcome of reading `v.key`. */
  datatype Read = Threw | Undefined | Defined(value: Json)

  /**
   * `v.key` for the keys the application reads (`reminders`, `email`, ...):
   * a TypeError on `null`, otherwise the own enumerable property if there is
   * one. Non-enumerable own properties such as a string's or an array's
   * `length`, and inherited methods, are not modelled; none of the keys the
   * application reads names one.
   */
  function Property(v: Json, key: string): (r: Read)
    ensures r.Threw? <==> v.JNull?
    ensures r.Defined? <==> !v.JNull? && key in OwnProperties(v)
    ensures r.Defined? ==> r.value == OwnProperties(v)[key]
  {
    if v.JNull? then Threw
    else if key in OwnProperties(v) then Defined(OwnProperties(v)[key])
    else Undefined
  }

  /** Whether a read that did not throw produced a truthy value (`undefined` is falsy). */
  predicate TruthyRead(r: Read) {
    r.Defined? && Truthy(r.value)
  }
}

=== FILE: save_profile.dfy ===
/**
 * The profile-save edge function: how a request's method and body decide the
 * response's status, JSON body and headers.
 *
 * `req.json()` is reduced to its result (None when it throws) and the clock to
 * its two readings, `Date.now()` and `new Date().toISOString()`.
 */
module SaveProfile {
  import opened JsValues
  import opened JsStrings

  /** The CORS headers every response carries. */
  const CorsHeaders: map<string, string> := map[
    "Access-Control-Allow-Origin" := "*",
    "Access-Control-Allow-Methods" := "GET, POST, PUT, DELETE, OPTIONS",
    "Access-Control-Allow-Headers" := "Content-Type, Authorization, X-Client-Info, Apikey"]

  const ContentTypeKey := "Content-Type"

  /** The headers of a response with a JSON body. */
  const JsonHeaders := CorsHeaders[ContentTypeKey := "application/json"]

  const SavedMessage := "Pregnancy profile saved successfully"

  /** A request: its HTTP method (`verb`), and what parsing its body as JSON gave (None when it threw). */
  datatype Request = Request(verb: string, body: Option<Json>)

  /** A response: status, the value serialised as its body (None for a null body), headers. */
  datatype Response = Response(status: int, body: Option<Json>, headers: map<string, string>)

  /** The clock readings the handler takes: milliseconds since the epoch, and the ISO-8601 text of now. */
  datatype Clock = Clock(nowMillis: nat, nowIso: string)

  function ErrorBody(message: string): Json {
    JObj(map["error" := JStr(message)])
  }

  function ErrorResponse(status: int, message: string): (r: Response)
    ensures r.status == status && r.headers == JsonHeaders
    ensures r.body == Some(ErrorBody(message))
  {
    Response(status, Some(ErrorBody(message)), JsonHeaders)
  }

  /**
   * The stored record `{id: "profile_<now>", ...profile, createdAt: <now>}`:
   * every submitted field, a generated id unless the client sent one, and the
   * server's creation time in any case.
   */
  function SavedData(profile: Json, clock: Clock): (r: map<string, Json>)
    ensures r.Keys == OwnProperties(profile).Keys + {"id", "createdAt"}
    ensures forall k :: k in OwnProperties(profile) && k != "createdAt" ==> r[k] == OwnProperties(profile)[k]
    ensures "id" !in OwnProperties(profile) ==> r["id"] == JStr("profile_" + DecimalString(clock.nowMillis))
    ensures r["createdAt"] == JStr(clock.nowIso)
  {
    var generated := map["id" := JStr("profile_" + DecimalString(clock.nowMillis))];
    (generated + OwnProperties(profile))["createdAt" := JStr(clock.nowIso)]
  }

  function SuccessBody(data: map<string, Json>): Json {
    JObj(map["success" := JBool(true), "message" := JStr(SavedMessage), "data" := JObj(data)])
  }

  /**
   * The request handler. OPTIONS is answered 200 with a null body. POST reads
   * the body: a body that does not parse, or parses to `null` (reading its
   * `email` throws), is a 500; a falsy `email` is a 400; otherwise 200 with the
   * saved record. Any other method is a 405.
   */
  function Handle(req: Request, clock: Clock): (r: Response)
    ensures r.status in {200, 400, 405, 500}
    ensures forall k :: k in CorsHeaders ==> k in r.headers && r.headers[k] == CorsHeaders[k]
    ensures req.verb == "OPTIONS" ==> r == Response(200, None, CorsHeaders)
    ensures req.verb != "OPTIONS" ==> r.headers == JsonHeaders && r.body.Some?
    ensures req.verb != "OPTIONS" && req.verb != "POST" ==> r == ErrorResponse(405, "Method not allowed")
    ensures req.verb == "POST" && (req.body.None? || req.body == Some(JNull)) ==>
              r == ErrorResponse(500, "Internal server error")
    ensures req.verb == "POST" && req.body.Some? && !req.body.value.JNull? ==>
              var email := Property(req.body.value, "email");
              && (!TruthyRead(email) ==> r == ErrorResponse(400, "Email is required"))
              && (TruthyRead(email) ==> r.status == 200 && r.body == Some(SuccessBody(SavedData(req.body.value, clock))))
  {
    if req.verb == "OPTIONS" then Response(200, None, CorsHeaders)
    else if req.verb == "POST" then
      match req.body
      case None => ErrorResponse(500, "Internal server error")
      case Some(profile) =>
        match Property(profile, "email")
        case Threw => ErrorResponse(500, "Internal server error")
        case _ =>
          if !TruthyRead(Property(profile, "email")) then ErrorResponse(400, "Email is required")
          else Response(200, Some(SuccessBody(SavedData(profile, clock))), JsonHeaders)
    else ErrorResponse(405, "Method not allowed")
  }

  /** Only an object can carry a truthy email, so every saved record comes from a submitted object. */
  lemma SavedOnlyObjects(req: Request, clock: Clock)
    requires Handle(req, clock).status == 200 && req.verb != "OPTIONS"
    ensures req.body.Some? && req.body.value.JObj?
  {
  }

  /**
   * A saved object keeps every submitted field: a client-supplied `id` wins over
   * the generated one, and only `createdAt` is always the server's.
   */
  lemma SavedKeepsFields(m: map<string, Json>, clock: Clock)
    ensures var data := SavedData(JObj(m), clock);
            && (forall k :: k in m && k != "createdAt" ==> data[k] == m[k])
            && ("id" in m ==> data["id"] == m["id"])
            && data["createdAt"] == JStr(clock.nowIso)
  {
  }
}

=== FILE: sign_up.dfy ===
/**
 * The sign-up page's submit handler: two ordered checks on the password, then
 * the sign-up call, then navigation or an error message.
 *
 * What the awaited `signUp(...)` call did is a parameter; `SubmitWithAuth`
 * connects the handler to the authentication context's own behaviour.
 */
module SignUp {
  import opened JsValues
  import AuthContext

  const MinPasswordLength := 6
  const TooShortMessage := "Password must be at least 6 characters long."
  const MismatchMessage := "Passwords do not match."
  const FallbackMessage := "Unable to create your account. Please try again."
  const DashboardRoute := "/dashboard"

  datatype Form = Form(firstName: string, lastName: string, email: string,
                       password: string, confirmPassword: string)

  /** The page state the handler changes: the error shown and the busy flag. */
  datatype PageState = PageState(error: Option<string>, isSubmitting: bool)

  /** How the awaited sign-up call ended. */
  datatype CallOutcome =
    | Resolved
    | RejectedWithError(message: string)  // it threw an Error
    | RejectedWithValue                    // it threw something that is not an Error

  /** What a submit did: the new page state, the sign-up call it made, where it navigated. */
  datatype Submission = Submission(page: PageState, call: Option<AuthContext.SignUpPayload>, navigateTo: Option<string>)

  /**
   * The two checks, in order: the password's length first, then its match with
   * the confirmation. None when both pass.
   */
  function Validate(form: Form): (r: Option<string>)
    ensures r.None? <==> |form.password| >= MinPasswordLength && form.password == form.confirmPassword
    ensures |form.password| < MinPasswordLength ==> r == Some(TooShortMessage)
    ensures |form.password| >= MinPasswordLength && form.password != form.confirmPassword ==>
              r == Some(MismatchMessage)
  {
    if |form.password| < MinPasswordLength then Some(TooShortMessage)
    else if form.password != form.confirmPassword then Some(MismatchMessage)
    else None
  }

  /** The sign-up payload: the form without its confirmation field. */
  function PayloadOf(form: Form): (p: AuthContext.SignUpPayload)
    ensures p.firstName == form.firstName && p.lastName == form.lastName
    ensures p.email == form.email && p.password == form.password
  {
    AuthContext.SignUpPayload(form.firstName, form.lastName, form.email, form.password)
  }

  /**
   * `handleSubmit`: clear the error, validate, and only if both checks pass call
   * sign-up; navigate to the dashboard when it resolves, otherwise show the
   * thrown Error's message or the fallback text. A call ends with the busy flag
   * false; a rejected form returns before touching it.
   */
  function HandleSubmit(page: PageState, form: Form, outcome: CallOutcome): (r: Submission)
    ensures Validate(form).None? ==> !r.page.isSubmitting
    ensures Validate(form).Some? ==> r.page.isSubmitting == page.isSubmitting
    ensures r.call.Some? <==> Validate(form).None?
    ensures r.call.Some? ==> r.call.value == PayloadOf(form)
    ensures Validate(form).Some? ==> r.page.error == Validate(form) && r.navigateTo.None?
    ensures r.navigateTo.Some? <==> Validate(form).None? && outcome.Resolved?
    ensures r.navigateTo.Some? ==> r.navigateTo.value == DashboardRoute && r.page.error.None?
    ensures Validate(form).None? && outcome.RejectedWithError? ==> r.page.error == Some(outcome.message)
    ensures Validate(form).None? && outcome.RejectedWithValue? ==> r.page.error == Some(FallbackMessage)
  {
    var cleared := page.(error := None);
    var invalid := Validate(form);
    if invalid.Some? then
      Submission(cleared.(error := invalid), None, None)
    else
      var call := Some(PayloadOf(form));
      match outcome
      case Resolved => Submission(PageState(cleared.error, false), call, Some(DashboardRoute))
      case RejectedWithError(message) => Submission(PageState(Some(message), false), call, None)
      case RejectedWithValue => Submission(PageState(Some(FallbackMessage), false), call, None)
  }

  /** Every submit starts from a cleared error: what it shows does not depend on what was shown before. */
  lemma PreviousErrorIsCleared(p1: PageState, p2: PageState, form: Form, outcome: CallOutcome)
    ensures HandleSubmit(p1, form, outcome).page.error == HandleSubmit(p2, form, outcome).page.error
    ensures HandleSubmit(p1, form, outcome).call == HandleSubmit(p2, form, outcome).call
    ensures HandleSubmit(p1, form, outcome).navigateTo == HandleSubmit(p2, form, outcome).navigateTo
  {
  }

  /**
   * The password confirmation is never sent: changing it does not change the
   * payload, and whenever a submit makes its call, that call is the payload of
   * the form with any other confirmation.
   */
  lemma ConfirmationIsNotForwarded(page: PageState, form: Form, other: string, outcome: CallOutcome)
    ensures PayloadOf(form) == PayloadOf(form.(confirmPassword := other))
    ensures HandleSubmit(page, form, outcome).call.Some? ==>
              HandleSubmit(page, form, outcome).call.value == PayloadOf(form.(confirmPassword := other))
  {
  }

  /**
   * The request the sign-up page causes: posted to the sign-up path with
   * exactly the form's first name, last name, email and password, and no
   * confirmation field.
   */
  lemma SignUpSendsTheForm(baseUrl: string, form: Form)
    ensures var req := AuthContext.SignUpRequest(baseUrl, PayloadOf(form));
            && req.url == baseUrl + AuthContext.SignUpPath
            && req.body == map["firstName" := form.firstName, "lastName" := form.lastName,
                               "email" := form.email, "password" := form.password]
            && "confirmPassword" !in req.body
  {
  }

  /**
   * The handler wired to the authentication context: a valid form sends the
   * sign-up request and the reply decides the outcome; an invalid one sends
   * nothing and leaves the session alone.
   */
  function SubmitWithAuth(page: PageState, form: Form, session: AuthContext.Session,
                          reply: AuthContext.AuthReply, stringify: AuthContext.AuthUser -> string)
    : (r: (Submission, AuthContext.Session))
    ensures Validate(form).Some? ==> r.1 == session
    ensures Validate(form).None? ==> r.1 == AuthContext.CompleteAuth(session, reply, stringify).session
    ensures r.0.navigateTo.Some? <==> Validate(form).None? && reply.Accepted?
  {
    if Validate(form).Some? then (HandleSubmit(page, form, Resolved), session)
    else
      var auth := AuthContext.CompleteAuth(session, reply, stringify);
      var outcome := if auth.error.None? then Resolved else RejectedWithError(auth.error.value);
      (HandleSubmit(page, form, outcome), auth.session)
  }

  /**
   * The authentication context only ever throws Errors, so behind it the page
   * never reaches its non-Error branch: a failed sign-up shows the context's
   * message, and a rejected reply without server text shows the default.
   */
  lemma AuthFailuresShowTheirMessage(page: PageState, form: Form, session: AuthContext.Session,
                                      reply: AuthContext.AuthReply,
                                      stringify: AuthContext.AuthUser -> string)
    requires Validate(form).None? && !reply.Accepted?
    ensures var r := SubmitWithAuth(page, form, session, reply, stringify);
            && r.1 == session
            && r.0.page.error == AuthContext.CompleteAuth(session, reply, stringify).error
            && (reply.Rejected? && !TruthyString(reply.errorField) ==>
                  r.0.page.error == Some(AuthContext.DefaultAuthError))
  {
  }
}
